=== FILE: README.md ===
# Caption-sorting photo bot: a Dafny model

`main1.py` is a Telegram bot. It files captioned photos into two directories, `kanan/` ("right") and
`kiri/` ("left"). On `/zip` it sends each directory back as one zip archive. This project models its core
and proves what the bot promises.

The model has four parts, one per module:

- **Caption reading** (`caption.dfy`, module `Caption`).
  - The caption is lowercased.
  - Its bucket is chosen by substring test. "kanan" is tested before "kiri", so "kanan" wins whenever both
    occur.
  - The file-name code is the first group of the first match of `([0-9+\-]+)\s*(kanan|kiri)`.
  - The regular-expression search is specified by a match predicate `MatchAt`. It is implemented by a
    search that moves from one maximal run of code characters to the next. Lemmas prove that this search
    returns the leftmost match and its group. The group is unique because of greedy matching: code
    characters, whitespace and the letter `k` do not overlap.
  - The stored file name is `<code>.jpg`.
- **The batch state machine** (`batch.dfy`, module `Batch`), written as pure functions over a `State`
  value. The state holds:
  - the two directories, as maps from file name to content;
  - the `cleared_folders` flag;
  - the pending `timeout_task`, as an optional task handle;
  - a counter for the next handle.

  Three events change or read the state:
  - a photo message (`Save`), which can start a batch (empty both directories, raise the flag, arm the
    timer) and then store the largest photo size;
  - the timeout task finishing its sleep (`Fire`), which lowers the flag;
  - the export command (`Export`).

  Lemmas cover:
  - when a batch starts;
  - that it starts at most once until the timer fires;
  - which files a save writes;
  - that a saved file reaches the exported archive.
- **The bot process** (`bot.dfy`, module `TeleBot`). A `Bot` object holds the module globals as fields,
  which its handler methods update in place. `SaveImage`, `FireTimer`, `StartBatch` and `WriteFile`
  are each proved to leave exactly the state of the matching `Batch` function (`Save`, `Fire`, `Reset`,
  `State.Put`), and `SaveImage` also returns `Save`'s replies. `ZipAndSend` is proved to send exactly
  `Batch.Export` of the current state. Clearing a directory (`ClearFolders`) and building an archive
  (`ZipFolder`) are loops with invariants.
- **Worked captions** (`scenarios.dfy`, module `Scenarios`): the two examples from the `/start` help text,
  plus edge cases.

The reset comes before the code check. With the flag down, a caption that has a keyword but no code still
runs the reset block (main1.py:51-63): both directories are emptied, the flag is raised and the timer is
armed. Only then is the code looked for and the photo rejected (main1.py:71-76).
`Batch.ResetBeforeCodeCheck` states this.

## Model

| member | source | states |
|---|---|---|
| Caption.LowerChar | main1.py:40 | an ASCII capital becomes the letter 32 code points above it (its lowercase), every other character is kept, and the result is never a capital |
| Caption.Lower | main1.py:40 | lowercasing keeps the length and maps every character through `LowerChar` |
| Caption.LowerKeepsLowercase | main1.py:40 | a text with no capitals is left unchanged, so lowercasing is idempotent |
| Caption.CaptionText | main1.py:40 | a missing caption reads as ""; otherwise the text has the caption's length and is the caption lowercased character by character, with no capitals left |
| Caption.ContainsFrom | main1.py:42-44 | the search from `from` answers true exactly when the word occurs at some position at or after `from` |
| Caption.Contains | main1.py:42-44 | Python's `w in s`: true exactly when `w` occurs somewhere in `s` |
| Caption.KeywordTestIgnoresCase | main1.py:40-44 | a word occurs in the inspected text exactly when it occurs in the caption as sent, up to letter case |
| Caption.ChooseBucket | main1.py:42-48 | kanan exactly when "kanan" occurs; kiri exactly when "kiri" occurs but "kanan" does not; no bucket exactly when neither occurs |
| Caption.IsSpace | main1.py:71 | `\s` accepts the ASCII whitespace characters, and never accepts a code character or the letter `k` |
| Caption.MatchAt | main1.py:71 | a match ends at a keyword beginning with `k`, and its code group is followed by a non-code character |
| Caption.KeywordIsWord | main1.py:71 | the pattern's keyword alternative matches at a position exactly when one of the two bucket keywords occurs there |
| Caption.CodeEnd | main1.py:71 | the greedy `[0-9+\-]+`: every character up to the result is a code character, and the one at the result is not |
| Caption.SpaceEnd | main1.py:71 | the greedy `\s*`: every character up to the result is whitespace, and the one at the result is not |
| Caption.CodeInside | main1.py:71 | a code run scanned from any point inside it ends at the same place |
| Caption.MatchIsMaximal | main1.py:71 | in every match, the code group is a maximal run of code characters and the whitespace is a maximal run of whitespace |
| Caption.FindMatch | main1.py:71 | a reported group lies inside the caption, at or after the search start, and is non-empty |
| Caption.FoundIsMatch | main1.py:71 | a reported group is a real match whose whitespace run ends in a keyword; it cannot be extended to the right, nor to the left unless the search started inside that code run |
| Caption.FoundIsLeftmost | main1.py:71 | no match is missed: the reported match starts at or before any match, and a match with the same start has the same group |
| Caption.ExtractCode | main1.py:71-76 | an extracted code is non-empty and made only of digits, `+` and `-` |
| Caption.NoCodeIffNoMatch | main1.py:71-76 | no code is extracted exactly when the pattern matches nowhere in the caption |
| Caption.ExtractCodeOfMatch | main1.py:71-73 | the code is the group of the leftmost match, and that group is a whole run of code characters |
| Caption.FileName | main1.py:78 | the file name is the code followed by exactly ".jpg" |
| Batch.Init | main1.py:20-26 | at start-up the flag is down, no timer is pending, and the directories keep their existing files |
| Batch.Reset | main1.py:51-63 | a reset leaves both directories empty, raises the flag, arms the timer with a fresh handle and advances the handle counter |
| Batch.Reply.Text | main1.py:47-81 | every reply has a non-empty text, and only the "Saved: …" confirmation starts with `S` |
| Batch.ReplyTextIdentifies | main1.py:47-81 | two replies with the same chat text are the same reply, down to the saved file's name and directory |
| Batch.Save | main1.py:37-81 | a photo event keeps the flag/timer invariant and never moves the handle counter back; a timer it arms has the handle `nextTask` and the counter then moves past it, so no handle is handed out twice (the invariant keeps every pending handle below the counter) |
| Batch.Fire | main1.py:29-33 | the pending task lowers the flag and clears the handle without touching any file; a cancelled or finished task changes nothing |
| Batch.Export | main1.py:84-100 | one item per directory, kanan first; a "No files in <dir>/" message exactly when the directory is empty, otherwise `<dir>.zip` holding exactly that directory's files |
| Batch.ExportFolder | main1.py:96-100 | for one directory: a "No files in <dir>/" message exactly when it is empty, otherwise `<dir>.zip` holding exactly its files |
| Batch.RunKeepsValid | main1.py:25-33 | across any sequence of photo, timeout and export events, a timer is pending exactly while the flag is set |
| Batch.NoKeywordNoEffect | main1.py:42-48 | a caption without a keyword gets the keyword reminder and changes nothing, and no other caption gets that reply |
| Batch.ResetOnlyWhenFlagDown | main1.py:51-63 | the directories are emptied, with the notice, exactly when the flag was down and the caption has a keyword; afterwards they hold only the file just saved; without a reset no file disappears |
| Batch.AtMostOneResetPerBatch | main1.py:50-57 | after a photo with a keyword, the next photo never clears the directories and deletes no file |
| Batch.ResetBeforeCodeCheck | main1.py:51-76 | with the flag down, a caption with a keyword but no code still empties both directories and arms the timer, then is rejected |
| Batch.RejectedInBatchKeepsState | main1.py:66-76 | inside a batch, a photo whose caption has a keyword but no code gets "Invalid caption format." and changes nothing |
| Batch.KeywordWithoutPhoto | main1.py:51-66 | a message with a keyword but no photo saves nothing: inside a batch it changes nothing and gets no reply; otherwise it only starts a batch |
| Batch.SaveWritesOneFile | main1.py:66-81 | a successful save writes exactly `<code>.jpg` (overwriting) with the largest photo size into the chosen directory, and every other file is as before |
| Batch.TimeoutReopensBatch | main1.py:29-33 | once the pending task fires, the files are untouched and the next photo with a keyword starts a new batch |
| Batch.BatchLastsUntilTimeout | main1.py:29-63 | over any run of events without the pending task's timeout, the flag stays up, the same timer stays pending, and no file disappears |
| Batch.SaveTimer | main1.py:51-63 | inside a batch a photo event leaves the pending timer and the handle counter alone |
| Batch.SavedFileIsExported | main1.py:78-98 | a saved file is in the archive the next export sends for its directory, with the saved content |
| TeleBot.ZipFolder | main1.py:87-93 | the archive is named `<folder>.zip` and its entries are exactly the folder's files under their bare names |
| TeleBot.Bot.constructor | main1.py:20-26 | the object starts in `Batch.Init` over the existing directories |
| TeleBot.Bot.RemoveFile | main1.py:56 | removes one file from one directory; nothing else changes |
| TeleBot.Bot.ClearFolders | main1.py:52-56 | both directories end up empty, and the flag and timer are unchanged |
| TeleBot.Bot.StartBatch | main1.py:51-63 | the new state is `Batch.Reset` of the old one, and the invariant holds |
| TeleBot.Bot.WriteFile | main1.py:79-80 | the new state is the old one with that single file put in place |
| TeleBot.Bot.SaveImage | main1.py:37-81 | the new state and the replies are exactly those of `Batch.Save`, and the invariant is kept |
| TeleBot.Bot.FireTimer | main1.py:29-33 | the new state is `Batch.Fire` of the old one, and the invariant is kept |
| TeleBot.Bot.ZipAndSend | main1.py:84-100 | what is sent is exactly `Batch.Export` of the current state |
| Scenarios.HelpExampleKanan | main1.py:103-106 | "112-50 kanan" goes to kanan with code "112-50" |
| Scenarios.HelpExampleKiri | main1.py:103-106 | "112+100 kiri" goes to kiri with code "112+100" |
| Scenarios.BucketAndCodeAreIndependent | main1.py:42-73 | "kanan 5 kiri" goes to kanan, yet its code "5" comes from the match with "kiri" |
| Scenarios.KeywordWithoutCode | main1.py:71-76 | "foto kanan" has a bucket but no code |
| Scenarios.CapitalKeyword | main1.py:40-44 | "5 KANAN" is filed under kanan |
| Scenarios.HelpCaptionRead | main1.py:40-48 | lowercasing leaves "112-50 kanan" unchanged, so it is filed under kanan with code "112-50" |
| Scenarios.FirstPhotoOfBatchRead | main1.py:51-81 | the first photo read as "112-50 kanan", into empty directories, gives the batch notice, then `112-50.jpg` in kanan and nothing in kiri |
| Scenarios.FirstPhotoOfBatch | main1.py:37-81 | the same for the caption "112-50 kanan" as sent |
| Scenarios.ReadOneKanan | main1.py:40-73 | "1 kanan" goes to kanan with code "1" |
| Scenarios.ReadTwoKiri | main1.py:40-73 | "2 kiri" goes to kiri with code "2" |
| Scenarios.TwoPhotosOneBatchRead | main1.py:51-81 | photos read as "1 kanan" then "2 kiri", into empty directories: one batch notice, then one file in each directory |
| Scenarios.TwoPhotosOneBatch | main1.py:37-81 | the same for the captions "1 kanan" and "2 kiri" as sent |
| Scenarios.ExportKiriOnly | main1.py:95-100 | with kanan empty and one file in kiri, the export sends "No files in kanan/" and then `kiri.zip` holding that file |
| Scenarios.ExportOneFolderEmptyRead | main1.py:51-100 | exporting after a single photo read as "2 kiri" into empty directories gives that message and archive |
| Scenarios.ExportOneFolderEmpty | main1.py:37-100 | the same for the caption "2 kiri" as sent |

## Left out

- Telegram itself is not modelled: the bot token, handler registration, polling, chat ids, and downloading a photo through `get_file`/`download_to_drive`. The photo's bytes are a parameter, and its sizes arrive smallest first, as Telegram sends them.
- The handler filter `filters.PHOTO & filters.Caption()` (main1.py:114) means that, in practice, only photos with a caption reach the handler. The model still covers a missing caption and an empty size list, as the handler's own code does.
- The `/start` reply (main1.py:103-106) is a fixed text. It appears only through its two example captions in `Scenarios`.
- Every Telegram reply and send, and every file operation, is taken to succeed. Each handler runs to its end, so an exception that stops a handler partway through is not modelled.
- Batch.RunKeepsValid, Batch.TimeoutReopensBatch and Batch.BatchLastsUntilTimeout describe only runs in which nothing fails. In the program, if the reply at main1.py:58 raises, the handler stops after main1.py:57 has raised the flag but before main1.py:61-63 arms the timer. The flag then stays up with no task pending, so no later photo clears the directories until the process restarts. The model's `Save` always runs the reset block to its end, so this state is unreachable in it.
- Time and concurrency are not modelled.
  - The 300-second sleep becomes an explicit `Timeout(task)` event.
  - Each handler runs as one atomic step, so an interleaving of other updates at its `await` points is not modelled.
  - Console `print` output and `load_dotenv` are left out.
- Batch.Fire: a cancelled or already-finished task is modelled as a no-op, because its body never runs.
- TeleBot.Bot.StartBatch: the `timeout_task.cancel()` branch is dead under the invariant (while the flag is down, no task is pending), and the method asserts this instead of modelling the cancel.
- Directories are flat maps. So the model does not represent:
  - subdirectories, which `os.path.isfile` skips at main1.py:55 and `os.walk` descends into at main1.py:90;
  - `os.makedirs` at start-up;
  - files whose names collide in an archive;
  - I/O errors.
- TeleBot.ZipFolder: the archive is a value (a name plus its entries). The zip byte format, the `<folder>.zip` file left in the working directory and the open file handle are not modelled.
- Caption.Lower: only ASCII `A`-`Z` are lowercased. Python's `str.lower()` also maps non-ASCII capitals, and a few of those (the Kelvin sign U+212A becomes `k`) can turn into letters of a keyword. A caption containing one is read differently by the model.
- Caption.IsSpace: `\s` is taken to be the set of characters that Python's `str.isspace()` accepts, written out by code point.

=== FILE: batch.dfy ===
/** The batch lifecycle of main1.py as a state machine on values: the two
    bucket directories, the `cleared_folders` flag and the pending reset
    timer, changed by the photo event and by the timer firing, and read by
    the export command. The class in module TeleBot is proved against these
    functions. */
module Batch {
  import opened Options
  import opened Caption

  type Bytes = seq<bv8>
  /** A bucket directory: file name to file content. */
  type Folder = map<string, Bytes>
  /** The handle of a scheduled timeout task. */
  type TaskId = nat

  datatype State = State(kanan: Folder, kiri: Folder, cleared: bool, timer: Option<TaskId>, nextTask: TaskId) {
    function Files(b: Bucket): Folder {
      match b
      case Kanan => kanan
      case Kiri => kiri
    }

    /** Writes (or overwrites) one file of bucket `b`. */
    function Put(b: Bucket, name: string, content: Bytes): State {
      match b
      case Kanan => this.(kanan := kanan[name := content])
      case Kiri => this.(kiri := kiri[name := content])
    }
  }

  /** A timer is pending exactly while the flag is set, and its handle is one
      already handed out. */
  ghost predicate Valid(st: State) {
    && (st.timer.Some? <==> st.cleared)
    && (st.timer.Some? ==> st.timer.value < st.nextTask)
  }

  /** Process start: the directories keep whatever they already hold, the
      flag is down and no timer is pending. */
  function Init(kanan: Folder, kiri: Folder): (st: State)
    ensures Valid(st) && !st.cleared && st.Files(Kanan) == kanan && st.Files(Kiri) == kiri
  {
    State(kanan, kiri, false, None, 0)
  }

  /** The replies the photo handler sends back to the chat. */
  datatype Reply = NeedKeyword | Cleared | InvalidFormat | Saved(name: string, folder: Bucket) {
    /** The chat text of the reply; only confirmations start with an `S`. */
    function Text(): (t: string)
      ensures |t| > 0 && (Saved? <==> t[0] == 'S')
    {
      match this
      case NeedKeyword => "Caption must contain 'kanan' or 'kiri'."
      case Cleared => "Old images cleared. Starting fresh batch..."
      case InvalidFormat => "Invalid caption format."
      case Saved(name, folder) => "Saved: " + name + " in " + folder.Dir() + "/"
    }
  }

  /** Different replies read differently in the chat: the text determines
      the reply, down to the saved file's name and folder. */
  lemma ReplyTextIdentifies(r1: Reply, r2: Reply)
    requires r1.Text() == r2.Text()
    ensures r1 == r2
  {
    var t := r1.Text();
    if r1.Saved? && r2.Saved? {
      assert r1.folder == r2.folder by {
        assert t[|t| - 2] == r1.folder.Dir()[|r1.folder.Dir()| - 1];
        assert t[|t| - 2] == r2.folder.Dir()[|r2.folder.Dir()| - 1];
      }
      assert r1.name == t[7..7 + |r1.name|];
      assert r2.name == t[7..7 + |r2.name|];
    } else if !r1.Saved? && !r2.Saved? {
      assert t[0] == r2.Text()[0];
    }
  }

  datatype Outcome = Outcome(state: State, replies: seq<Reply>)

  /** Start of a batch: both buckets emptied, flag raised, a new timer armed
      (its handle replaces, and so cancels, any earlier one). */
  function Reset(st: State): (r: State)
    ensures r.Files(Kanan) == map[] && r.Files(Kiri) == map[]
    ensures r.cleared && r.timer == Some(st.nextTask) && r.nextTask == st.nextTask + 1
    ensures Valid(r)
  {
    State(map[], map[], true, Some(st.nextTask), st.nextTask + 1)
  }

  /** One photo message: `caption` is the message's caption, `photos` its
      sizes from smallest to largest. */
  function Save(st: State, caption: Option<string>, photos: seq<Bytes>): (o: Outcome)
    ensures Valid(st) ==> Valid(o.state)
    ensures o.state.nextTask >= st.nextTask
    ensures o.state.timer != st.timer ==> o.state.timer == Some(st.nextTask) && o.state.nextTask > st.nextTask
  {
    var text := CaptionText(caption);
    match ChooseBucket(text)
    case None => Outcome(st, [NeedKeyword])
    case Some(b) =>
      var mid := if st.cleared then Outcome(st, []) else Outcome(Reset(st), [Cleared]);
      if |photos| == 0 then mid
      else match ExtractCode(text)
        case None => Outcome(mid.state, mid.replies + [InvalidFormat])
        case Some(code) =>
          var name := FileName(code);
          Outcome(mid.state.Put(b, name, photos[|photos| - 1]), mid.replies + [Saved(name, b)])
  }

  /** The timeout task `task` reaches the end of its sleep. Only the pending
      task can get there: a cancelled task never resumes, and a finished one
      does not run again, so for any other handle nothing happens. */
  function Fire(st: State, task: TaskId): (r: State)
    ensures Valid(st) ==> Valid(r)
    ensures r.kanan == st.kanan && r.kiri == st.kiri && r.nextTask == st.nextTask
    ensures st.timer == Some(task) ==> !r.cleared && r.timer == None
    ensures st.timer != Some(task) ==> r == st
  {
    if st.timer == Some(task) then st.(cleared := false, timer := None) else st
  }

  // ---------------------------------------------------------------------
  // Export

  /** A zip archive: its file name and its entries, by entry name. */
  datatype Archive = Archive(name: string, entries: Folder)

  /** What the export command sends for one bucket. */
  datatype Sent = Document(archive: Archive) | Message(text: string)

  /** The two bucket folders, in the order the handlers visit them. */
  const Folders: seq<Bucket> := [Kanan, Kiri]

  /** What the export sends for one folder: a message when it is empty, and
      otherwise `<folder>.zip` holding exactly its files. */
  function ExportFolder(b: Bucket, files: Folder): (out: Sent)
    ensures out.Message? <==> files == map[]
    ensures out.Message? ==> out.text == "No files in " + b.Dir() + "/"
    ensures out.Document? ==> out.archive == Archive(b.Dir() + ".zip", files)
  {
    if files == map[] then Message("No files in " + b.Dir() + "/")
    else Document(Archive(b.Dir() + ".zip", files))
  }

  /** The export command: "kanan" first, then "kiri"; an empty bucket is
      reported, a non-empty one is sent as one archive whose entries are
      exactly the bucket's files under their bare names. */
  function Export(st: State): (out: seq<Sent>)
    ensures |out| == |Folders|
    ensures forall n :: 0 <= n < |out| ==>
      var b := Folders[n];
      && (out[n].Message? <==> st.Files(b) == map[])
      && (out[n].Message? ==> out[n].text == "No files in " + b.Dir() + "/")
      && (out[n].Document? ==> out[n].archive == Archive(b.Dir() + ".zip", st.Files(b)))
  {
    seq(|Folders|, n requires 0 <= n < |Folders| => ExportFolder(Folders[n], st.Files(Folders[n])))
  }

  // ---------------------------------------------------------------------
  // Runs of events

  datatype Event = Photo(caption: Option<string>, photos: seq<Bytes>) | Timeout(task: TaskId) | ZipCommand

  function Step(st: State, e: Event): State {
    match e
    case Photo(caption, photos) => Save(st, caption, photos).state
    case Timeout(task) => Fire(st, task)
    case ZipCommand => st
  }

  function Run(st: State, events: seq<Event>): State
    decreases |events|
  {
    if events == [] then st else Run(Step(st, events[0]), events[1..])
  }

  /** The timer invariant holds in every state a run of events reaches. */
  lemma {:induction false} RunKeepsValid(st: State, events: seq<Event>)
    requires Valid(st)
    ensures Valid(Run(st, events))
    decreases |events|
  {
    if events != [] {
      RunKeepsValid(Step(st, events[0]), events[1..]);
    }
  }

  // ---------------------------------------------------------------------
  // Properties of the photo event

  /** A caption without a keyword is answered with the keyword reminder and
      nothing else happens; no other caption gets that answer. */
  lemma NoKeywordNoEffect(st: State, caption: Option<string>, photos: seq<Bytes>)
    ensures var o := Save(st, caption, photos);
      && (ChooseBucket(CaptionText(caption)).None? <==> o.replies == [NeedKeyword])
      && (ChooseBucket(CaptionText(caption)).None? ==> o.state == st)
  {
    var text := CaptionText(caption);
    var o := Save(st, caption, photos);
    if ChooseBucket(text).Some? {
      assert NeedKeyword !in o.replies by { SaveReplies(st, caption, photos); }
    }
  }

  /** The replies of an event with a keyword: the notice when the flag was
      down, then the rejection or the confirmation when there is a photo. */
  lemma SaveReplies(st: State, caption: Option<string>, photos: seq<Bytes>)
    requires ChooseBucket(CaptionText(caption)).Some?
    ensures var text := CaptionText(caption);
      var b := ChooseBucket(text).value;
      var notice := if st.cleared then [] else [Cleared];
      Save(st, caption, photos).replies ==
        if |photos| == 0 then notice
        else if ExtractCode(text).None? then notice + [InvalidFormat]
        else notice + [Saved(FileName(ExtractCode(text).value), b)]
  {
  }

  /** The buckets are emptied, with the notice, exactly when the flag was down
      and the caption has a keyword. After a reset the buckets hold only what
      this event saved; without one no file disappears. */
  lemma ResetOnlyWhenFlagDown(st: State, caption: Option<string>, photos: seq<Bytes>)
    requires Valid(st)
    ensures var o := Save(st, caption, photos);
      && (Cleared in o.replies <==> !st.cleared && ChooseBucket(CaptionText(caption)).Some?)
      && (o.state.cleared <==> st.cleared || ChooseBucket(CaptionText(caption)).Some?)
      && (Cleared in o.replies ==>
            forall b, name :: name in o.state.Files(b) ==> Saved(name, b) in o.replies)
      && (Cleared !in o.replies ==>
            forall b :: st.Files(b).Keys <= o.state.Files(b).Keys)
  {
    var text := CaptionText(caption);
    var o := Save(st, caption, photos);
    if ChooseBucket(text).Some? {
      var b := ChooseBucket(text).value;
      SaveReplies(st, caption, photos);
      SaveState(st, caption, photos);
      if !st.cleared {
        assert o.replies[0] == Cleared;
        forall b', name | name in o.state.Files(b') ensures Saved(name, b') in o.replies {
          var code := ExtractCode(text).value;
          assert b' == b && name == FileName(code);
          assert o.replies[|o.replies| - 1] == Saved(name, b');
        }
      } else {
        assert forall r :: r in o.replies ==> !r.Cleared?;
      }
    }
  }

  /** The state after an event with a keyword: the buckets as left by the
      reset (if the flag was down), plus the saved file when there is a
      photo and a code. */
  lemma SaveState(st: State, caption: Option<string>, photos: seq<Bytes>)
    requires ChooseBucket(CaptionText(caption)).Some?
    ensures var text := CaptionText(caption);
      var b := ChooseBucket(text).value;
      var mid := if st.cleared then st else Reset(st);
      Save(st, caption, photos).state ==
        if |photos| == 0 || ExtractCode(text).None? then mid
        else mid.Put(b, FileName(ExtractCode(text).value), photos[|photos| - 1])
  {
  }

  /** Two photo events in a row, the first with a keyword: the second never
      clears, so a batch is cleared at most once. */
  lemma {:induction false} AtMostOneResetPerBatch(st: State, c1: Option<string>, p1: seq<Bytes>,
                                                  c2: Option<string>, p2: seq<Bytes>)
    requires Valid(st)
    requires ChooseBucket(CaptionText(c1)).Some?
    ensures var o1 := Save(st, c1, p1);
      var o2 := Save(o1.state, c2, p2);
      && Cleared !in o2.replies
      && forall b :: o1.state.Files(b).Keys <= o2.state.Files(b).Keys
  {
    var o1 := Save(st, c1, p1);
    ResetOnlyWhenFlagDown(st, c1, p1);
    ResetOnlyWhenFlagDown(o1.state, c2, p2);
  }

  /** The reset comes before the code is looked at: with the flag down, a
      caption with a keyword but no code still empties both buckets, then is
      rejected and saves nothing. */
  lemma ResetBeforeCodeCheck(st: State, caption: Option<string>, photos: seq<Bytes>)
    requires !st.cleared
    requires ChooseBucket(CaptionText(caption)).Some?
    requires |photos| > 0 && ExtractCode(CaptionText(caption)).None?
    ensures var o := Save(st, caption, photos);
      && o.state.kanan == map[] && o.state.kiri == map[]
      && o.state.cleared && o.state.timer == Some(st.nextTask)
      && o.replies == [Cleared, InvalidFormat]
  {
  }

  /** Inside a batch, a caption with a keyword but no code is rejected and
      nothing changes. */
  lemma RejectedInBatchKeepsState(st: State, caption: Option<string>, photos: seq<Bytes>)
    requires st.cleared
    requires ChooseBucket(CaptionText(caption)).Some?
    requires |photos| > 0 && ExtractCode(CaptionText(caption)).None?
    ensures Save(st, caption, photos) == Outcome(st, [InvalidFormat])
  {
  }

  /** A message with a keyword but no photo saves nothing: inside a batch it
      changes nothing and gets no reply; otherwise it starts a batch. */
  lemma KeywordWithoutPhoto(st: State, caption: Option<string>)
    requires ChooseBucket(CaptionText(caption)).Some?
    ensures st.cleared ==> Save(st, caption, []) == Outcome(st, [])
    ensures !st.cleared ==> Save(st, caption, []) == Outcome(Reset(st), [Cleared])
  {
  }

  /** A batch lasts until its own timer fires: over any run of events that
      does not include the pending task's timeout, the flag stays up, the
      same timer stays pending, no photo clears the folders and no file
      disappears. */
  lemma {:induction false} BatchLastsUntilTimeout(st: State, events: seq<Event>)
    requires Valid(st) && st.cleared
    requires forall n :: 0 <= n < |events| ==> events[n] != Timeout(st.timer.value)
    ensures var r := Run(st, events);
      && r.cleared && r.timer == st.timer
      && forall b :: st.Files(b).Keys <= r.Files(b).Keys
    decreases |events|
  {
    if events != [] {
      var next := Step(st, events[0]);
      match events[0] {
        case Photo(caption, photos) =>
          ResetOnlyWhenFlagDown(st, caption, photos);
          SaveTimer(st, caption, photos);
        case Timeout(task) =>
        case ZipCommand =>
      }
      assert next.cleared && next.timer == st.timer;
      assert forall n :: 0 <= n < |events[1..]| ==> events[1..][n] != Timeout(next.timer.value);
      BatchLastsUntilTimeout(next, events[1..]);
    }
  }

  /** Inside a batch a photo event leaves the pending timer alone. */
  lemma SaveTimer(st: State, caption: Option<string>, photos: seq<Bytes>)
    requires st.cleared
    ensures Save(st, caption, photos).state.timer == st.timer
    ensures Save(st, caption, photos).state.nextTask == st.nextTask
  {
  }

  /** A successful save writes exactly `<code>.jpg` into the chosen bucket,
      overwriting an earlier file of that name; every other file, in that
      bucket and in the other one, is as the (possibly just emptied) bucket
      had it. */
  lemma SaveWritesOneFile(st: State, caption: Option<string>, photos: seq<Bytes>, b: Bucket, code: string)
    requires ChooseBucket(CaptionText(caption)) == Some(b)
    requires |photos| > 0 && ExtractCode(CaptionText(caption)) == Some(code)
    ensures var o := Save(st, caption, photos);
      && o.state.Files(b) == (if st.cleared then st.Files(b) else map[])[code + ".jpg" := photos[|photos| - 1]]
      && (forall b' :: b' != b ==> o.state.Files(b') == if st.cleared then st.Files(b') else map[])
      && o.state.cleared
      && (st.cleared ==> o.state.timer == st.timer && o.state.nextTask == st.nextTask)
      && o.replies == (if st.cleared then [] else [Cleared]) + [Saved(code + ".jpg", b)]
  {
  }

  /** Once the pending timer fires, the buckets are untouched, the flag is
      down, and the next photo with a keyword clears again. */
  lemma {:induction false} TimeoutReopensBatch(st: State, task: TaskId, caption: Option<string>, photos: seq<Bytes>)
    requires Valid(st) && st.timer == Some(task)
    requires ChooseBucket(CaptionText(caption)).Some?
    ensures var r := Fire(st, task);
      && Valid(r) && r.Files(Kanan) == st.Files(Kanan) && r.Files(Kiri) == st.Files(Kiri)
      && Cleared in Save(r, caption, photos).replies
  {
    ResetOnlyWhenFlagDown(Fire(st, task), caption, photos);
  }

  /** A file saved by a photo event is in the archive the next export sends
      for its bucket, with the content that was saved. */
  lemma SavedFileIsExported(st: State, caption: Option<string>, photos: seq<Bytes>, b: Bucket, code: string)
    requires ChooseBucket(CaptionText(caption)) == Some(b)
    requires |photos| > 0 && ExtractCode(CaptionText(caption)) == Some(code)
    ensures var out := Export(Save(st, caption, photos).state);
      var n := if b == Kanan then 0 else 1;
      && Folders[n] == b
      && out[n].Document?
      && out[n].archive.entries[FileName(code)] == photos[|photos| - 1]
  {
    SaveWritesOneFile(st, caption, photos, b, code);
    var after := Save(st, caption, photos).state;
    var n := if b == Kanan then 0 else 1;
    assert FileName(code) in after.Files(b);
    var out := Export(after);
    assert out[n].Document? && out[n].archive.entries == after.Files(Folders[n]);
  }
}

=== FILE: bot.dfy ===
/** The bot process of main1.py: its global state (the two bucket
    directories, `cleared_folders`, `timeout_task`) as the fields of one
    object, updated in place by the photo handler, by the timeout task and
    read by the export command. Each method is proved against the matching
    function of module Batch. */
module TeleBot {
  import opened Options
  import opened Caption
  import opened Batch

  /** `zip_folder`: one archive, named after the folder, holding every file
      of the folder under its bare name. */
  method ZipFolder(folder: Bucket, files: Folder) returns (archive: Archive)
    ensures archive.name == folder.Dir() + ".zip"
    ensures archive.entries == files
  {
    var entries: Folder := map[];
    var todo := files.Keys;
    while todo != {}
      invariant todo <= files.Keys
      invariant entries.Keys == files.Keys - todo
      invariant forall name :: name in entries ==> entries[name] == files[name]
      decreases todo
    {
      var name :| name in todo;
      entries := entries[name := files[name]];
      todo := todo - {name};
    }
    archive := Archive(folder.Dir() + ".zip", entries);
  }

  class Bot {
    var kanan: Folder
    var kiri: Folder
    /** `cleared_folders` */
    var cleared: bool
    /** `timeout_task` */
    var timer: Option<TaskId>
    /** The handle the next scheduled task will get. */
    var nextTask: TaskId

    function Snapshot(): State
      reads this
    {
      State(kanan, kiri, cleared, timer, nextTask)
    }

    function Files(b: Bucket): Folder
      reads this
    {
      Snapshot().Files(b)
    }

    ghost predicate Valid()
      reads this
    {
      Batch.Valid(Snapshot())
    }

    /** Process start over directories that may already hold files. */
    constructor (kananFiles: Folder, kiriFiles: Folder)
      ensures Valid() && Snapshot() == Init(kananFiles, kiriFiles)
    {
      kanan, kiri := kananFiles, kiriFiles;
      cleared, timer, nextTask := false, None, 0;
    }

    method RemoveFile(b: Bucket, name: string)
      modifies this
      ensures Files(b) == old(Files(b)) - {name}
      ensures forall b' :: b' != b ==> Files(b') == old(Files(b'))
      ensures cleared == old(cleared) && timer == old(timer) && nextTask == old(nextTask)
    {
      match b {
        case Kanan => kanan := kanan - {name};
        case Kiri => kiri := kiri - {name};
      }
    }

    /** Start of a batch: every file listed in each folder is removed, one at
      a time. */
    method ClearFolders()
      modifies this
      ensures kanan == map[] && kiri == map[]
      ensures cleared == old(cleared) && timer == old(timer) && nextTask == old(nextTask)
    {
      var f := 0;
      while f < |Folders|
        invariant 0 <= f <= |Folders|
        invariant forall g :: 0 <= g < f ==> Files(Folders[g]) == map[]
        invariant cleared == old(cleared) && timer == old(timer) && nextTask == old(nextTask)
      {
        var listing := Files(Folders[f]).Keys;
        while listing != {}
          invariant Files(Folders[f]).Keys == listing
          invariant forall g :: 0 <= g < f ==> Files(Folders[g]) == map[]
          invariant cleared == old(cleared) && timer == old(timer) && nextTask == old(nextTask)
          decreases listing
        {
          var name :| name in listing;
          RemoveFile(Folders[f], name);
          listing := listing - {name};
        }
        f := f + 1;
      }
      assert Files(Folders[0]) == map[] && Files(Folders[1]) == map[];
    }

    /** The first photo of a batch: both folders emptied, the flag raised
        and a new timeout task scheduled. */
    method StartBatch()
      requires Valid() && !cleared
      modifies this
      ensures Valid()
      ensures Snapshot() == Reset(old(Snapshot()))
    {
      ClearFolders();
      cleared := true;
      // The old task would be cancelled here, but with the flag down no task
      // is ever pending.
      assert timer == None;
      timer := Some(nextTask);
      nextTask := nextTask + 1;
    }

    /** Writes the photo as `name` into `folder`, replacing a file of that
        name. */
    method WriteFile(folder: Bucket, name: string, photo: Bytes)
      modifies this
      ensures Snapshot() == old(Snapshot()).Put(folder, name, photo)
    {
      match folder {
        case Kanan => kanan := kanan[name := photo];
        case Kiri => kiri := kiri[name := photo];
      }
    }

    /** `save_image`: one photo message with its caption and its sizes
        (smallest first). */
    method SaveImage(caption: Option<string>, photos: seq<Bytes>) returns (replies: seq<Reply>)
      requires Valid()
      modifies this
      ensures Valid()
      ensures Snapshot() == Save(old(Snapshot()), caption, photos).state
      ensures replies == Save(old(Snapshot()), caption, photos).replies
    {
      ghost var before := Snapshot();
      var text := CaptionText(caption);
      var choice := ChooseBucket(text);
      if choice.None? {
        NoKeywordNoEffect(before, caption, photos);
        return [NeedKeyword];
      }
      var folder := choice.value;
      SaveState(before, caption, photos);
      SaveReplies(before, caption, photos);
      replies := [];
      if !cleared {
        StartBatch();
        replies := replies + [Cleared];
      }
      if |photos| > 0 {
        var photo := photos[|photos| - 1];
        var code := ExtractCode(text);
        if code.None? {
          replies := replies + [InvalidFormat];
          return;
        }
        var name := FileName(code.value);
        WriteFile(folder, name, photo);
        replies := replies + [Saved(name, folder)];
      }
    }

    /** `reset_cleared_flag_after_timeout`, once the sleep of task `task` is
        over. */
    method FireTimer(task: TaskId)
      requires Valid()
      modifies this
      ensures Valid()
      ensures Snapshot() == Fire(old(Snapshot()), task)
    {
      if timer == Some(task) {
        cleared := false;
        timer := None;
      }
    }

    /** `zip_and_send`: one archive or one "no files" message per folder. */
    method ZipAndSend() returns (sent: seq<Sent>)
      ensures sent == Export(Snapshot())
    {
      sent := [];
      var f := 0;
      while f < |Folders|
        invariant 0 <= f <= |Folders|
        invariant sent == Export(Snapshot())[..f]
      {
        var folder := Folders[f];
        var files := Files(folder);
        if files != map[] {
          var archive := ZipFolder(folder, files);
          sent := sent + [Document(archive)];
        } else {
          sent := sent + [Message("No files in " + folder.Dir() + "/")];
        }
        f := f + 1;
      }
    }
  }
}

=== FILE: caption.dfy ===
/** Caption handling of the photo handler in main1.py: lowercasing, the
    choice of bucket by keyword, and the extraction of the file-name code by
    the pattern `([0-9+\-]+)\s*(kanan|kiri)`. Everything here is pure. */
module Caption {
  import opened Options

  const KananWord: string := "kanan"
  const KiriWord: string := "kiri"
  const Extension: string := ".jpg"

  /** The two buckets; each is a top-level directory named after its keyword. */
  datatype Bucket = Kanan | Kiri {
    function Dir(): string {
      match this
      case Kanan => "kanan"
      case Kiri => "kiri"
    }
  }

  // ---------------------------------------------------------------------
  // Lowercasing

  /** ASCII lowercasing of one character; other characters are kept. */
  function LowerChar(c: char): (d: char)
    ensures !('A' <= d <= 'Z')
    ensures 'A' <= c <= 'Z' ==> d as int == c as int + 32
    ensures !('A' <= c <= 'Z') ==> d == c
  {
    if 'A' <= c <= 'Z' then (c as int + ('a' as int - 'A' as int)) as char else c
  }

  /** The caption's `lower()`, character by character. */
  function Lower(s: string): (r: string)
    ensures |r| == |s|
    ensures forall i :: 0 <= i < |s| ==> r[i] == LowerChar(s[i])
  {
    if s == [] then [] else [LowerChar(s[0])] + Lower(s[1..])
  }

  /** Lowercasing leaves a caption without capitals as it is; in particular
      it is idempotent. */
  lemma LowerKeepsLowercase(s: string)
    requires forall i :: 0 <= i < |s| ==> !('A' <= s[i] <= 'Z')
    ensures Lower(s) == s
  {
    assert forall i :: 0 <= i < |s| ==> Lower(s)[i] == s[i];
  }

  /** The text the handler works on: an absent caption reads as "", a
      present one is lowercased character by character. */
  function CaptionText(caption: Option<string>): (t: string)
    ensures caption.None? ==> t == ""
    ensures |t| == |caption.GetOr("")|
    ensures forall i :: 0 <= i < |t| ==> t[i] == LowerChar(caption.GetOr("")[i])
    ensures forall i :: 0 <= i < |t| ==> !('A' <= t[i] <= 'Z')
  {
    Lower(caption.GetOr(""))
  }

  // ---------------------------------------------------------------------
  // Substring test (Python's `w in s`)

  /** `w` occurs in `s` starting at position `i`. */
  predicate OccursAt(s: string, w: string, i: int) {
    0 <= i && i + |w| <= |s| && forall n :: 0 <= n < |w| ==> s[i + n] == w[n]
  }

  /** `w` is a substring of `s`. */
  ghost predicate HasWord(s: string, w: string) {
    exists i :: OccursAt(s, w, i)
  }

  /** Left-to-right search for `w` starting at position `from`. */
  function ContainsFrom(s: string, w: string, from: nat): (b: bool)
    ensures b <==> exists i :: from <= i && OccursAt(s, w, i)
    decreases |s| - from
  {
    if from + |w| > |s| then false
    else if OccursAt(s, w, from) then true
    else ContainsFrom(s, w, from + 1)
  }

  function Contains(s: string, w: string): (b: bool)
    ensures b <==> HasWord(s, w)
  {
    ContainsFrom(s, w, 0)
  }

  /** `w` occurs in `s` at `i` once each character of `s` is lowercased. */
  predicate OccursLoweredAt(s: string, w: string, i: int) {
    0 <= i && i + |w| <= |s| && forall n :: 0 <= n < |w| ==> LowerChar(s[i + n]) == w[n]
  }

  /** The keyword tests ignore case: a word occurs in the text the handler
      inspects exactly when it occurs in the caption as sent, up to the case
      of its letters. */
  lemma KeywordTestIgnoresCase(s: string, w: string)
    ensures HasWord(CaptionText(Some(s)), w) <==> exists i :: OccursLoweredAt(s, w, i)
  {
    var t := CaptionText(Some(s));
    forall i ensures OccursAt(t, w, i) <==> OccursLoweredAt(s, w, i) {
    }
  }

  // ---------------------------------------------------------------------
  // Bucket choice

  /** The bucket named by the (lowercased) caption: "kanan" is tested first,
      so it wins whenever both keywords occur, wherever they stand. */
  function ChooseBucket(text: string): (r: Option<Bucket>)
    ensures r == Some(Kanan) <==> HasWord(text, KananWord)
    ensures r == Some(Kiri) <==> !HasWord(text, KananWord) && HasWord(text, KiriWord)
    ensures r == None <==> !HasWord(text, KananWord) && !HasWord(text, KiriWord)
  {
    if Contains(text, KananWord) then Some(Kanan)
    else if Contains(text, KiriWord) then Some(Kiri)
    else None
  }

  // ---------------------------------------------------------------------
  // The code pattern ([0-9+\-]+)\s*(kanan|kiri)

  /** The character class [0-9+\-]. */
  predicate IsCodeChar(c: char) {
    '0' <= c <= '9' || c == '+' || c == '-'
  }

  /** `\s` on a Python `str`: the characters `str.isspace()` accepts. */
  predicate IsSpace(c: char): (b: bool)
    ensures c == ' ' || 9 <= c as int <= 13 ==> b
    ensures b ==> !IsCodeChar(c) && c != 'k'
  {
    var n := c as int;
    (9 <= n <= 13) || (28 <= n <= 32) || n == 0x85 || n == 0xA0 || n == 0x1680
    || (0x2000 <= n <= 0x200A) || n == 0x2028 || n == 0x2029 || n == 0x202F
    || n == 0x205F || n == 0x3000
  }

  /** The alternative `(kanan|kiri)` matches at `k`, spelled letter by letter
      (`KeywordIsWord` ties it to the two keywords). */
  predicate KeywordAt(s: string, k: int) {
    && 0 <= k < |s| && s[k] == 'k'
    && (|| (k + 5 <= |s| && s[k + 1] == 'a' && s[k + 2] == 'n' && s[k + 3] == 'a' && s[k + 4] == 'n')
        || (k + 4 <= |s| && s[k + 1] == 'i' && s[k + 2] == 'r' && s[k + 3] == 'i'))
  }

  /** The regular expression matches `s` from `i` to the end of the keyword
      at `k`, with group 1 spanning `s[i..j]` and the whitespace `s[j..k]`. */
  ghost predicate MatchAt(s: string, i: int, j: int, k: int): (b: bool)
    ensures b ==> 0 <= j <= k < |s| && s[k] == 'k' && !IsCodeChar(s[j])
  {
    && 0 <= i < j <= k <= |s|
    && (forall t :: i <= t < j ==> IsCodeChar(s[t]))
    && (forall t :: j <= t < k ==> IsSpace(s[t]))
    && KeywordAt(s, k)
  }

  /** The group `(kanan|kiri)` is exactly an occurrence of one of the two
      bucket keywords. */
  lemma KeywordIsWord(s: string, k: int)
    ensures KeywordAt(s, k) <==> OccursAt(s, KananWord, k) || OccursAt(s, KiriWord, k)
  {
    if OccursAt(s, KananWord, k) {
      assert s[k + 0] == KananWord[0] && s[k + 1] == KananWord[1] && s[k + 2] == KananWord[2];
      assert s[k + 3] == KananWord[3] && s[k + 4] == KananWord[4];
    }
    if OccursAt(s, KiriWord, k) {
      assert s[k + 0] == KiriWord[0] && s[k + 1] == KiriWord[1];
      assert s[k + 2] == KiriWord[2] && s[k + 3] == KiriWord[3];
    }
  }

  /** End of the longest run of code characters from `i`: the greedy
      `[0-9+\-]+`. */
  function CodeEnd(s: string, i: nat): (e: nat)
    requires i <= |s|
    ensures i <= e <= |s|
    ensures forall t :: i <= t < e ==> IsCodeChar(s[t])
    ensures e == |s| || !IsCodeChar(s[e])
    decreases |s| - i
  {
    if i < |s| && IsCodeChar(s[i]) then CodeEnd(s, i + 1) else i
  }

  /** End of the longest run of whitespace from `i`: the greedy `\s*`. */
  function SpaceEnd(s: string, i: nat): (e: nat)
    requires i <= |s|
    ensures i <= e <= |s|
    ensures forall t :: i <= t < e ==> IsSpace(s[t])
    ensures e == |s| || !IsSpace(s[e])
    decreases |s| - i
  {
    if i < |s| && IsSpace(s[i]) then SpaceEnd(s, i + 1) else i
  }

  /** Starting anywhere inside a code run ends the run at the same place. */
  lemma {:induction false} CodeInside(s: string, i: nat, m: nat)
    requires i <= |s| && i <= m <= CodeEnd(s, i)
    ensures CodeEnd(s, m) == CodeEnd(s, i)
    decreases m - i
  {
    if i < m {
      assert IsCodeChar(s[i]);
      CodeInside(s, i + 1, m);
    }
  }

  /** A code run that ends where the class first fails is the run `CodeEnd`
      finds. */
  lemma {:induction false} CodeExact(s: string, i: nat, e: nat)
    requires i <= e <= |s|
    requires forall t :: i <= t < e ==> IsCodeChar(s[t])
    requires e == |s| || !IsCodeChar(s[e])
    ensures CodeEnd(s, i) == e
    decreases e - i
  {
    if i < e {
      CodeExact(s, i + 1, e);
    }
  }

  /** Likewise for whitespace and `SpaceEnd`. */
  lemma {:induction false} SpaceExact(s: string, i: nat, e: nat)
    requires i <= e <= |s|
    requires forall t :: i <= t < e ==> IsSpace(s[t])
    requires e == |s| || !IsSpace(s[e])
    ensures SpaceEnd(s, i) == e
    decreases e - i
  {
    if i < e {
      SpaceExact(s, i + 1, e);
    }
  }

  /** Every match of the pattern is made of a maximal code run followed by a
      maximal whitespace run: neither the code class nor `\s` contains the
      other's characters or the keywords' first letter, so the greedy
      quantifiers never give anything back. */
  lemma MatchIsMaximal(s: string, i: int, j: int, k: int)
    requires MatchAt(s, i, j, k)
    ensures j == CodeEnd(s, i) && k == SpaceEnd(s, j)
  {
    CodeExact(s, i, j);
    SpaceExact(s, j, k);
  }

  /** Group 1 of a match, as positions in the caption. */
  datatype Span = Span(start: nat, end: nat)

  /** The search, from position `from`, for the first maximal run of code
      characters that is followed by optional whitespace and a keyword. The
      lemmas below show that this is what the regular-expression search
      finds. */
  function FindMatch(s: string, from: nat): (r: Option<Span>)
    requires from <= |s|
    ensures r.Some? ==> from <= r.value.start < r.value.end <= |s|
    decreases |s| - from
  {
    if from == |s| then None
    else
      var j := CodeEnd(s, from);
      if j == from then FindMatch(s, from + 1)
      else if KeywordAt(s, SpaceEnd(s, j)) then Some(Span(from, j))
      else FindMatch(s, j)
  }

  /** What the search from `from` reports is a match, and its group is a
      whole run of code characters (unless the search started inside that
      run). */
  ghost predicate FoundMatch(s: string, from: nat)
    requires from <= |s|
  {
    var r := FindMatch(s, from);
    r.Some? ==>
      && MatchAt(s, r.value.start, r.value.end, SpaceEnd(s, r.value.end))
      && (r.value.start == from || !IsCodeChar(s[r.value.start - 1]))
      && (r.value.end == |s| || !IsCodeChar(s[r.value.end]))
  }

  /** A character outside the code class is passed over. */
  lemma FoundPastNonCode(s: string, from: nat)
    requires from < |s| && !IsCodeChar(s[from])
    requires FoundMatch(s, from + 1)
    ensures FoundMatch(s, from)
  {
    assert FindMatch(s, from) == FindMatch(s, from + 1);
  }

  /** A code run that no keyword follows is passed over as a whole. */
  lemma FoundPastRun(s: string, from: nat)
    requires from <= |s| && from < CodeEnd(s, from)
    requires !KeywordAt(s, SpaceEnd(s, CodeEnd(s, from)))
    requires FoundMatch(s, CodeEnd(s, from))
    ensures FoundMatch(s, from)
  {
    var j := CodeEnd(s, from);
    assert FindMatch(s, from) == FindMatch(s, j);
    var r := FindMatch(s, j);
    if r.Some? {
      assert IsCodeChar(s[r.value.start]);
    }
  }

  /** A code run from `from` followed by a keyword is reported as it is. */
  lemma FoundAtStart(s: string, from: nat)
    requires from <= |s| && from < CodeEnd(s, from)
    requires KeywordAt(s, SpaceEnd(s, CodeEnd(s, from)))
    ensures FoundMatch(s, from)
  {
    var j := CodeEnd(s, from);
    assert FindMatch(s, from) == Some(Span(from, j));
    assert MatchAt(s, from, j, SpaceEnd(s, j));
  }

  lemma {:induction false} FoundIsMatch(s: string, from: nat)
    requires from <= |s|
    ensures FoundMatch(s, from)
    decreases |s| - from
  {
    if from < |s| {
      if !IsCodeChar(s[from]) {
        FoundIsMatch(s, from + 1);
        FoundPastNonCode(s, from);
      } else if KeywordAt(s, SpaceEnd(s, CodeEnd(s, from))) {
        FoundAtStart(s, from);
      } else {
        FoundIsMatch(s, CodeEnd(s, from));
        FoundPastRun(s, from);
      }
    }
  }

  /** The search from `from` reports a match that starts no later than `i`,
      and the match with group `s[i..j]` itself when it starts at `i`. */
  ghost predicate FoundBy(s: string, from: nat, i: int, j: int)
    requires from <= |s|
  {
    var r := FindMatch(s, from);
    r.Some? && r.value.start <= i && (r.value.start == i ==> r.value.end == j)
  }

  /** The search misses no match: from any position at or before a match's
      start, it reports that match or one to its left. */
  lemma {:induction false} FoundIsLeftmost(s: string, from: nat, i: int, j: int, k: int)
    requires from <= i && MatchAt(s, i, j, k)
    ensures FoundBy(s, from, i, j)
    decreases |s| - from
  {
    MatchIsMaximal(s, i, j, k);
    if !IsCodeChar(s[from]) {
      assert FindMatch(s, from) == FindMatch(s, from + 1);
      FoundIsLeftmost(s, from + 1, i, j, k);
    } else {
      var e := CodeEnd(s, from);
      if !KeywordAt(s, SpaceEnd(s, e)) {
        assert e <= i by {
          if i < e {
            CodeInside(s, from, i);
          }
        }
        assert FindMatch(s, from) == FindMatch(s, e);
        FoundIsLeftmost(s, e, i, j, k);
      } else {
        assert FindMatch(s, from) == Some(Span(from, e));
      }
    }
  }

  /** The code that names the stored file, if the caption has one. */
  function ExtractCode(s: string): (r: Option<string>)
    ensures r.Some? ==> |r.value| > 0 && forall c :: c in r.value ==> IsCodeChar(c)
  {
    FoundIsMatch(s, 0);
    match FindMatch(s, 0)
    case None => None
    case Some(sp) => Some(s[sp.start..sp.end])
  }

  /** The caption has no code exactly when the pattern matches nowhere. */
  lemma NoCodeIffNoMatch(s: string)
    ensures ExtractCode(s).None? <==> forall i, j, k :: !MatchAt(s, i, j, k)
  {
    FoundIsMatch(s, 0);
    forall i, j, k | MatchAt(s, i, j, k) ensures ExtractCode(s).Some? {
      FoundIsLeftmost(s, 0, i, j, k);
    }
  }

  /** The leftmost match determines the code: it is exactly that match's
      group, a run of code characters that can be extended neither to the
      left nor to the right. */
  lemma ExtractCodeOfMatch(s: string, i: int, j: int, k: int)
    requires MatchAt(s, i, j, k)
    requires forall i', j', k' :: 0 <= i' < i ==> !MatchAt(s, i', j', k')
    ensures ExtractCode(s) == Some(s[i..j])
    ensures i == 0 || !IsCodeChar(s[i - 1])
    ensures j == |s| || !IsCodeChar(s[j])
  {
    FoundIsLeftmost(s, 0, i, j, k);
    FoundIsMatch(s, 0);
  }

  /** The stored file's name, `<code>.jpg`. */
  function FileName(code: string): (name: string)
    ensures |name| == |code| + |Extension|
    ensures name[..|code|] == code && name[|code|..] == Extension
  {
    code + Extension
  }
}

=== FILE: options.dfy ===
/** The usual optional-value wrapper, used for an absent caption, a failed
    classification and the pending-timer handle. */
module Options {
  datatype Option<+T> = None | Some(value: T) {
    /** The wrapped value, or `default` when there is none. */
    function GetOr(default: T): T {
      match this
      case Some(v) => v
      case None => default
    }
  }
}

=== FILE: scenarios.dfy ===
/** Worked captions, including the two the /start help text suggests, run
    through the model of the photo handler. */
module Scenarios {
  import opened Options
  import opened Caption
  import opened Batch

  /** "112-50 kanan": bucket kanan, code "112-50". */
  lemma HelpExampleKanan(s: string)
    requires s == "112-50 kanan"
    ensures ChooseBucket(s) == Some(Kanan)
    ensures ExtractCode(s) == Some("112-50")
  {
    assert OccursAt(s, KananWord, 7);
    assert MatchAt(s, 0, 6, 7);
    ExtractCodeOfMatch(s, 0, 6, 7);
    assert s[0..6] == "112-50";
  }

  /** "112+100 kiri": bucket kiri, code "112+100". */
  lemma HelpExampleKiri(s: string)
    requires s == "112+100 kiri"
    ensures ChooseBucket(s) == Some(Kiri)
    ensures ExtractCode(s) == Some("112+100")
  {
    assert OccursAt(s, KiriWord, 8);
    assert forall t :: 0 <= t < 8 ==> s[t] != 'k';
    forall i ensures !OccursAt(s, KananWord, i) {
      if 0 <= i && i + |KananWord| <= |s| {
        assert s[i] != KananWord[0];
      }
    }
    assert MatchAt(s, 0, 7, 8);
    ExtractCodeOfMatch(s, 0, 7, 8);
    assert s[0..7] == "112+100";
  }

  /** "kanan 5 kiri": the bucket comes from the first keyword test, the code
      from the first place the pattern matches, so `5.jpg` goes to kanan. */
  lemma BucketAndCodeAreIndependent(s: string)
    requires s == "kanan 5 kiri"
    ensures ChooseBucket(s) == Some(Kanan)
    ensures ExtractCode(s) == Some("5")
  {
    assert OccursAt(s, KananWord, 0);
    assert MatchAt(s, 6, 7, 8);
    forall i, j, k | 0 <= i < 6
      ensures !MatchAt(s, i, j, k)
    {
      assert !IsCodeChar(s[i]);
    }
    ExtractCodeOfMatch(s, 6, 7, 8);
    assert s[6..7] == "5";
  }

  /** A keyword without a code in front of it: "foto kanan" has no code. */
  lemma KeywordWithoutCode(s: string)
    requires s == "foto kanan"
    ensures ChooseBucket(s) == Some(Kanan)
    ensures ExtractCode(s) == None
  {
    assert OccursAt(s, KananWord, 5);
    NoCodeIffNoMatch(s);
    forall i, j, k ensures !MatchAt(s, i, j, k) {
      if 0 <= i < |s| {
        assert !IsCodeChar(s[i]);
      }
    }
  }

  /** The keyword may be written in capitals: "5 KANAN" is filed under
      kanan. */
  lemma CapitalKeyword(s: string)
    requires s == "5 KANAN"
    ensures ChooseBucket(CaptionText(Some(s))) == Some(Kanan)
  {
    KeywordTestIgnoresCase(s, KananWord);
    assert OccursLoweredAt(s, KananWord, 2);
  }

  /** Lowercasing leaves "112-50 kanan" as it is, so the handler files it
      under kanan with code "112-50". */
  lemma HelpCaptionRead(s: string)
    requires s == "112-50 kanan"
    ensures ChooseBucket(CaptionText(Some(s))) == Some(Kanan)
    ensures ExtractCode(CaptionText(Some(s))) == Some("112-50")
  {
    LowerKeepsLowercase(s);
    HelpExampleKanan(s);
  }

  /** The first photo of a batch, read as "112-50 kanan", into empty
      folders: the batch notice, then `112-50.jpg` in kanan and nothing in
      kiri. */
  lemma FirstPhotoOfBatchRead(caption: Option<string>, photo: Bytes)
    requires ChooseBucket(CaptionText(caption)) == Some(Kanan)
    requires ExtractCode(CaptionText(caption)) == Some("112-50")
    ensures var o := Save(Init(map[], map[]), caption, [photo]);
      && o.state.kanan == map["112-50.jpg" := photo]
      && o.state.kiri == map[]
      && o.replies == [Cleared, Saved("112-50.jpg", Kanan)]
  {
    assert FileName("112-50") == "112-50.jpg";
    SaveWritesOneFile(Init(map[], map[]), caption, [photo], Kanan, "112-50");
  }

  /** The same with the caption "112-50 kanan" as sent. */
  lemma FirstPhotoOfBatch(s: string, photo: Bytes)
    requires s == "112-50 kanan"
    ensures var o := Save(Init(map[], map[]), Some(s), [photo]);
      && o.state.kanan == map["112-50.jpg" := photo]
      && o.state.kiri == map[]
      && o.replies == [Cleared, Saved("112-50.jpg", Kanan)]
  {
    HelpCaptionRead(s);
    FirstPhotoOfBatchRead(Some(s), photo);
  }

  /** "1 kanan": bucket kanan, code "1". */
  lemma ReadOneKanan(s: string)
    requires s == "1 kanan"
    ensures ChooseBucket(CaptionText(Some(s))) == Some(Kanan)
    ensures ExtractCode(CaptionText(Some(s))) == Some("1")
  {
    LowerKeepsLowercase(s);
    assert OccursAt(s, KananWord, 2);
    assert MatchAt(s, 0, 1, 2);
    ExtractCodeOfMatch(s, 0, 1, 2);
    assert s[0..1] == "1";
  }

  /** "2 kiri": bucket kiri, code "2". */
  lemma ReadTwoKiri(s: string)
    requires s == "2 kiri"
    ensures ChooseBucket(CaptionText(Some(s))) == Some(Kiri)
    ensures ExtractCode(CaptionText(Some(s))) == Some("2")
  {
    LowerKeepsLowercase(s);
    assert OccursAt(s, KiriWord, 2);
    forall i ensures !OccursAt(s, KananWord, i) {
      if 0 <= i && i + |KananWord| <= |s| {
        assert s[i] != KananWord[0];
      }
    }
    assert MatchAt(s, 0, 1, 2);
    ExtractCodeOfMatch(s, 0, 1, 2);
    assert s[0..1] == "2";
  }

  /** Two photos into empty folders, the first read as "1 kanan" and the
      second as "2 kiri": one batch notice, and one file in each folder. */
  lemma TwoPhotosOneBatchRead(c1: Option<string>, c2: Option<string>, p1: Bytes, p2: Bytes)
    requires ChooseBucket(CaptionText(c1)) == Some(Kanan) && ExtractCode(CaptionText(c1)) == Some("1")
    requires ChooseBucket(CaptionText(c2)) == Some(Kiri) && ExtractCode(CaptionText(c2)) == Some("2")
    ensures var o1 := Save(Init(map[], map[]), c1, [p1]);
      var o2 := Save(o1.state, c2, [p2]);
      && o1.replies == [Cleared, Saved("1.jpg", Kanan)]
      && o2.replies == [Saved("2.jpg", Kiri)]
      && o2.state.kanan == map["1.jpg" := p1]
      && o2.state.kiri == map["2.jpg" := p2]
  {
    var st := Init(map[], map[]);
    assert FileName("1") == "1.jpg" && FileName("2") == "2.jpg";
    SaveWritesOneFile(st, c1, [p1], Kanan, "1");
    SaveWritesOneFile(Save(st, c1, [p1]).state, c2, [p2], Kiri, "2");
  }

  /** The same with the captions as sent. */
  lemma TwoPhotosOneBatch(s1: string, s2: string, p1: Bytes, p2: Bytes)
    requires s1 == "1 kanan" && s2 == "2 kiri"
    ensures var o1 := Save(Init(map[], map[]), Some(s1), [p1]);
      var o2 := Save(o1.state, Some(s2), [p2]);
      && o1.replies == [Cleared, Saved("1.jpg", Kanan)]
      && o2.replies == [Saved("2.jpg", Kiri)]
      && o2.state.kanan == map["1.jpg" := p1]
      && o2.state.kiri == map["2.jpg" := p2]
  {
    ReadOneKanan(s1);
    ReadTwoKiri(s2);
    TwoPhotosOneBatchRead(Some(s1), Some(s2), p1, p2);
  }

  /** Export with kanan empty and one file in kiri: a "No files" message
      for kanan, then `kiri.zip` holding that file. */
  lemma ExportKiriOnly(st: State, name: string, photo: Bytes)
    requires st.kanan == map[] && st.kiri == map[name := photo]
    ensures Export(st) == [Message("No files in kanan/"), Document(Archive("kiri.zip", map[name := photo]))]
  {
    var out := Export(st);
    assert "No files in " + Kanan.Dir() + "/" == "No files in kanan/";
    assert Kiri.Dir() + ".zip" == "kiri.zip";
    assert name in st.Files(Folders[1]);
    assert out[0] == Message("No files in kanan/");
    assert out[1] == Document(Archive("kiri.zip", map[name := photo]));
  }

  /** Export after a batch holding only a photo read as "2 kiri". */
  lemma ExportOneFolderEmptyRead(caption: Option<string>, photo: Bytes)
    requires ChooseBucket(CaptionText(caption)) == Some(Kiri) && ExtractCode(CaptionText(caption)) == Some("2")
    ensures Export(Save(Init(map[], map[]), caption, [photo]).state)
      == [Message("No files in kanan/"), Document(Archive("kiri.zip", map["2.jpg" := photo]))]
  {
    assert FileName("2") == "2.jpg";
    SaveWritesOneFile(Init(map[], map[]), caption, [photo], Kiri, "2");
    ExportKiriOnly(Save(Init(map[], map[]), caption, [photo]).state, "2.jpg", photo);
  }

  /** The same with the caption "2 kiri" as sent. */
  lemma ExportOneFolderEmpty(s: string, photo: Bytes)
    requires s == "2 kiri"
    ensures Export(Save(Init(map[], map[]), Some(s), [photo]).state)
      == [Message("No files in kanan/"), Document(Archive("kiri.zip", map["2.jpg" := photo]))]
  {
    ReadTwoKiri(s);
    ExportOneFolderEmptyRead(Some(s), photo);
  }
}
